=== FILE: README.md ===
# generate-subtitles, modelled in Dafny

`main.py` turns a video into a subtitled video in four stages. It extracts
the audio track, transcribes it with a speech model, and writes the
transcription as an SRT-style subtitle file. It then muxes that file back
into the video as a soft subtitle track. This project models the parts of
that pipeline the program decides for itself:

- `format_time`: splitting a seconds offset into hours, minutes, seconds and
  milliseconds, and printing them (`TimeFormat`, on top of `Decimal`).
- The subtitle text built by `generate_subtitle_file` (`Subtitles`).
- The file names derived from the input path with `str.replace` and
  f-strings (`Naming`, on top of `Text`).
- The media-engine call of `add_subtitle_to_video`, including the keyword
  options of soft mode (`Muxing`).
- The composition of all this in `run` (`Pipeline`).

Each operation is proved against an independent description of it:

- Timestamp printing and subtitle rendering have readers (`ParseTime`,
  `ParseDocument`), and the round trips are proved.
- The field computation is proved against the real number it came from.
- Python's `round` is proved against an independent nearest-even
  characterisation.
- `str.replace` is proved against `str.join`.
- The option dict is proved against its exact expected value.

The model follows the code as written, including these behaviours of it:

- `round` ties to even, so 0.0625 s (62.5 ms) prints as `00:00:0,062`.
- The milliseconds field can round up to 1000 without carrying into the
  seconds, so 59.99951171875 s prints as `00:00:59,1000`.
- The seconds field is printed with format `01d`, unpadded, so 9 s prints as
  `00:00:9,000`. Timestamps are therefore not lexicographically monotonic in
  time.
- Negative offsets are not rejected. They give a negative hour field.
- Segment text is written verbatim, without trimming.
- Each of the first three lines of a cue block (number, timing, text) ends
  in a space before its line break; the fourth line is empty.
- Of the two `metadata:s:s:0` entries in the soft-mode options, only the
  title survives.

Seconds are exact reals, so Python's `math.floor`, `%` on a positive divisor
and `round` (ties to even) are modelled exactly. No floating-point error
arises. The worked examples use inputs that a binary float holds exactly
(0.0625 = 2^-4, 59.99951171875 = 60 - 2^-11), so there the program's
floating-point results agree with the exact ones.

## Model

| member | source | states |
|---|---|---|
| Decimal.Show | main.py:42 | `str(n)` is a non-empty digit string that starts with '0' only for 0, and has one digit exactly when n < 10 |
| Decimal.ValueShow | main.py:42 | the numeral `str(n)` denotes n |
| Decimal.FormatInt | main.py:33 | a `0Nd` field is exactly max(N, sign plus digit count) characters long; for n >= 0 it is digits only, for n < 0 it is '-' followed by digits only; with FormatIntRoundTrip this pins it to `str(n)` zero-padded after the sign |
| Decimal.ShowLength | main.py:33 | `str(n)` has two digits for 10 <= n < 100 and three for 100 <= n < 1000 |
| Decimal.FormatIntRoundTrip | main.py:33 | any integer printed at any width reads back as that integer, so zero padding and the sign lose nothing |
| Text.ReplaceAbsent | main.py:9 | `str.replace` leaves a string without an occurrence of a non-empty pattern unchanged |
| Text.ReplaceAt | main.py:9 | for a pattern that cannot overlap itself, the first occurrence after an occurrence-free prefix is the one replaced, and the scan resumes after it |
| Text.ReplaceJoin | main.py:9 | every occurrence is replaced, not only one: `pat.join(parts).replace(pat, rep) == rep.join(parts)` for occurrence-free parts |
| TimeFormat.Floor | main.py:27 | `math.floor(x)` is the integer f with f <= x < f + 1 |
| TimeFormat.PyMod | main.py:28 | Python's `x % k` for k > 0 lies in [0, k) and differs from x by a whole multiple of k |
| TimeFormat.Round | main.py:31 | `round(x)` is within 1/2 of x, and is even when x is exactly half-way |
| TimeFormat.RoundUnique | main.py:31 | no other integer meets that description |
| TimeFormat.Split | main.py:26-32 | hours = floor(s/3600); minutes and seconds lie in [0,59]; milliseconds lie in [0,1000]; the four fields denote s to within half a millisecond |
| TimeFormat.SplitFields | main.py:26-32 | each field read off the input: hours = floor(s/3600), minutes = floor(s/60) mod 60, seconds = floor(s) mod 60, milliseconds = round(frac(s)·1000) with ties to even |
| TimeFormat.ModWhole | main.py:28-30 | `x % k` for a whole k keeps the fractional part of x, and its floor is floor(x) mod k |
| TimeFormat.MillisThousand | main.py:31-32 | the milliseconds field is 1000, uncarried, exactly when the fractional part of the input is at least 0.9995 |
| TimeFormat.FormatClock | main.py:33 | the printed timestamp has at least 11 characters |
| TimeFormat.FormatClockLayout | main.py:33 | three ':'-separated fields, the last split by ',': hours at least two characters, minutes exactly two, seconds unpadded as `str` prints them, milliseconds three digits, or four when they reach 1000 |
| TimeFormat.FormatTimeLayout | main.py:26-34 | every `format_time` result has that layout, its seconds field being the unpadded whole seconds of the split |
| TimeFormat.FormatClockRoundTrip | main.py:33 | the layout `H:M:S,ms` is unambiguous: reading a printed reading back gives all four fields |
| TimeFormat.FormatTimeRoundTrip | main.py:26-34 | `format_time(s)` determines the field split of s, and that split lies within half a millisecond of s |
| TimeFormat.FormatTimeHasNoBlank | main.py:33 | a timestamp contains no space and no line break |
| TimeFormat.FormatZero | main.py:26-34 | `format_time(0)` is `00:00:0,000` |
| TimeFormat.FormatMillisNotCarried | main.py:31-33 | `format_time(59.99951171875)` is `00:00:59,1000`: 999.51… ms round to 1000, which is not carried |
| TimeFormat.FormatHalfMillisToEven | main.py:31-33 | `format_time(0.0625)` is `00:00:0,062`: the 62.5 ms tie goes to the even 62, not 63 |
| TimeFormat.FormatNotMonotonic | main.py:33 | `format_time(10)` sorts before `format_time(9)` |
| TimeFormat.FormatNegative | main.py:27-33 | `format_time(-1)` is `-1:59:59,000` |
| Subtitles.CueBlock | main.py:42-44 | each cue block ends in a blank line |
| Subtitles.Render | main.py:38-44 | the subtitle text is empty exactly when there are no segments |
| Subtitles.RenderWithAppend | main.py:39-44 | for any timestamp printer, one more segment appends exactly one block, numbered after the others, and leaves the earlier text unchanged |
| Subtitles.RenderAppend | main.py:39-44 | the same for `format_time` timestamps |
| Subtitles.RenderSubtitles | main.py:38-44 | the loop with its three appends per segment builds exactly the rendered text |
| Subtitles.RenderWithRoundTrip | main.py:39-44 | for any printer whose stamps read back and hold no blank, the text parses back to one cue per segment, in order |
| Subtitles.RenderRoundTrip | main.py:36-44 | the subtitle text parses back to one cue per segment, in input order. Each cue has its 1-based number, both timestamps' fields and the text verbatim, when no text contains a line break |
| Naming.StripExtension | main.py:9 | `str.replace(ext, "")` for an extension (".mp4" here, ".srt" at line 54): a path without the extension is unchanged, and `<stem><ext>` whose stem has no other occurrence of it becomes `<stem>` |
| Naming.DotExtensionBorderFree | main.py:9 | an extension such as ".mp4" or ".srt" (a dot, then no other dot) cannot overlap itself, which is what lets `str.replace` on it be undone |
| Naming.AudioPath | main.py:10 | the audio file name is `audio-` + name + `.wav`, and the name can be read off it |
| Naming.SubtitlePath | main.py:37 | the subtitle file name is `sub-` + name + `.` + language + `.srt`, with both parts recoverable by position |
| Naming.InputPath | main.py:50 | the reopened video is the name followed by `.mp4` |
| Naming.OutputPath | main.py:53 | the output name is `output-` + name + `.mp4`, and the name can be read off it |
| Naming.BaseNameRoundTrip | main.py:9 | for a name without ".mp4", `<name>.mp4` has base name `<name>`, and the rebuilt video path is the input |
| Naming.BaseNameRemovesEvery | main.py:9 | every ".mp4" is removed from the path, wherever it occurs |
| Naming.BaseNameInnerOccurrence | main.py:9 | `a.mp4b.mp4` has base name `ab` |
| Naming.OtherContainerNotReopened | main.py:50 | for input `a.mkv` the video reopened for muxing is `a.mkv.mp4` |
| Naming.TrackTitleRoundTrip | main.py:54 | the track title is the subtitle file name minus `.srt` |
| Naming.TrackTitleInnerOccurrence | main.py:54 | for base name `a.srt` and language `en` the subtitle file is `sub-a.srt.en.srt` and its track title is `sub-a.en`: every ".srt" is removed, not only the extension |
| Muxing.DictDisplay | main.py:56 | a dict display has exactly the keys of its entries, and a repeated key holds its last entry's value |
| Muxing.UnpackKwargs | main.py:56 | `**a, **b` fails exactly when a keyword repeats; otherwise it holds the keys of both, each with its value |
| Muxing.SoftOptionsLastWins | main.py:56 | the soft-mode options are exactly `c=copy`, `c:s=mov_text`, `metadata:s:s:0=title=<title>`; the language tag is lost and no TypeError is raised |
| Muxing.AddSubtitleToVideo | main.py:49-60 | the call reopens `<name>.mp4` and writes `output-<name>.mp4`. Soft mode adds the subtitle file as a second input with stream-copy options and the title tag; hard mode burns it in through the `vf` filter |
| Pipeline.ExtractAudio | main.py:8-14 | the stage reads the input video and writes the audio file named after the returned base name, which is the input itself when the input holds no ".mp4" |
| Pipeline.GenerateSubtitleFile | main.py:36-47 | the subtitle file is named from base name and language, and is empty exactly when there are no segments |
| Pipeline.Run | main.py:62-85 | the muxing stage reads the subtitle file just written and writes the output named after the base name |
| Pipeline.RunNames | main.py:62-85 | for input `<name>.mp4` where the name holds no ".mp4" and `sub-<name>.<language>` holds no ".srt", every derived name is as documented, the muxing stage reopens the very video extraction read, and the track title is `sub-<name>.<language>` |
| Pipeline.RunReopensOtherFile | main.py:66-81 | for input `a.mkv` the muxing stage opens `a.mkv.mp4`, which is neither the video extraction read nor the audio or subtitle file written |

## Left out

- The media engine (ffmpeg). Extraction and muxing are modelled as the calls they make: the files they read and write, and the muxing options. What the engine does with them is not modelled.
- Speech recognition (`transcribe`, main.py:16-24). The detected language and the segment list are inputs to `Pipeline.Run`. Its progress prints are not modelled.
- Writing the subtitle file (main.py:45-46). The model produces its path and its text.
- The progress and timing prints in `run` and the argument parser (main.py:62-93). Clocks and console output do not affect anything the program computes.
- Floating-point arithmetic. Seconds are exact reals, so results that IEEE-754 rounding would perturb near a boundary are the exact-arithmetic ones.
- Subtitles.RenderRoundTrip: proved only for segment texts without a line break. A multi-line text makes the rendered blocks ambiguous to read back.
- Naming.BaseNameRoundTrip: proved only for names with no inner ".mp4". Other names are covered by BaseNameRemovesEvery and BaseNameInnerOccurrence.
- Naming.TrackTitleRoundTrip: proved only for subtitle stems with no inner ".srt".
- Pipeline.RunNames: proved only for names with no inner ".mp4" and subtitle stems with no ".srt". Outside them the names differ: for `a.srt.mp4` the title is `sub-a.en` (TrackTitleInnerOccurrence), and for `b.mp4.mp4` the base name is `b`, so the mux stage reopens `b.mp4`, not the file extraction read (BaseNameRemovesEvery).
- The readers `ParseTime` and `ParseDocument` are not part of the program. They exist as the printers' inverses.

=== FILE: decimal.dfy ===
/** Python's decimal rendering of integers: `str(n)` and the format
    specification `0Nd` used by the timestamp fields (zero-padded to at
    least N characters, the sign before the padding), together with the
    parser that reads such a field back. */
module Decimal {
  import opened Wrappers

  predicate IsDigit(c: char) {
    '0' <= c <= '9'
  }

  predicate AllDigits(s: string) {
    forall i :: 0 <= i < |s| ==> IsDigit(s[i])
  }

  function DigitChar(d: nat): (c: char)
    requires d < 10
    ensures IsDigit(c)
    ensures c as int - '0' as int == d
  {
    ('0' as int + d) as char
  }

  /** `str(n)` for a non-negative `n`: the shortest decimal numeral, so the
      only numeral that starts with '0' is "0" itself. */
  function Show(n: nat): (s: string)
    ensures |s| >= 1 && AllDigits(s)
    ensures s[0] == '0' <==> n == 0
    ensures n < 10 <==> |s| == 1
    decreases n
  {
    if n < 10 then [DigitChar(n)] else Show(n / 10) + [DigitChar(n % 10)]
  }

  /** The number a string of decimal digits denotes, most significant first. */
  function Value(s: string): nat
    requires AllDigits(s)
  {
    if |s| == 0 then 0
    else Value(s[..|s| - 1]) * 10 + (s[|s| - 1] as int - '0' as int)
  }

  /** `int(s)` restricted to unsigned digit strings; None where Python raises. */
  function ParseNat(s: string): (r: Option<nat>)
    ensures r.Some? <==> |s| > 0 && AllDigits(s)
  {
    if |s| > 0 && AllDigits(s) then Some(Value(s)) else None
  }

  /** An optional '-' followed by an unsigned digit string. */
  function ParseInt(s: string): Option<int> {
    var negative := |s| > 0 && s[0] == '-';
    var magnitude := ParseNat(if negative then s[1..] else s);
    if magnitude.None? then None
    else if negative then Some(0 - magnitude.value)
    else Some(magnitude.value)
  }

  function Zeros(k: nat): (z: string)
    ensures |z| == k
    ensures forall i :: 0 <= i < k ==> z[i] == '0'
  {
    seq(k, _ => '0')
  }

  /** Left-pads `s` with '0' up to `width` characters; never truncates. */
  function ZeroPad(s: string, width: nat): (r: string)
    ensures |r| == if |s| >= width then |s| else width
    ensures r[|r| - |s|..] == s
    ensures forall i :: 0 <= i < |r| - |s| ==> r[i] == '0'
  {
    if |s| >= width then s else Zeros(width - |s|) + s
  }

  /** `format(n, "0<width>d")`: the magnitude zero-padded so that sign and
      digits together take at least `width` characters. */
  function FormatInt(n: int, width: nat): (r: string)
    ensures |r| >= width
    ensures forall i :: 0 <= i < |r| ==> IsDigit(r[i]) || r[i] == '-'
    ensures n >= 0 ==> AllDigits(r)
    ensures n >= 0 ==> |r| == if |Show(n)| >= width then |Show(n)| else width
    ensures n < 0 ==> |r| == if |Show(-n)| + 1 >= width then |Show(-n)| + 1 else width
    ensures n < 0 ==> r[0] == '-' && AllDigits(r[1..])
  {
    if n < 0 then "-" + ZeroPad(Show(-n), if width > 0 then width - 1 else 0)
    else ZeroPad(Show(n), width)
  }

  /** `str(n)` has two digits for 10 <= n < 100 and three for 100 <= n < 1000. */
  lemma ShowLength(n: nat)
    ensures 10 <= n < 100 ==> |Show(n)| == 2
    ensures 100 <= n < 1000 ==> |Show(n)| == 3
  {
    if n >= 100 {
      assert Show(n) == Show(n / 10) + [DigitChar(n % 10)];
    }
  }

  lemma {:induction false} ValueShow(n: nat)
    ensures Value(Show(n)) == n
    decreases n
  {
    if n >= 10 {
      var s := Show(n);
      assert s[..|s| - 1] == Show(n / 10);
      ValueShow(n / 10);
    }
  }

  /** A leading '0' does not change the value of a digit string. */
  lemma {:induction false} ValueZeroCons(s: string)
    requires AllDigits(s)
    ensures Value(['0'] + s) == Value(s)
    decreases |s|
  {
    if |s| > 0 {
      var t := ['0'] + s;
      assert t[..|t| - 1] == ['0'] + s[..|s| - 1];
      ValueZeroCons(s[..|s| - 1]);
    }
  }

  lemma {:induction false} ValueLeadingZeros(k: nat, s: string)
    requires AllDigits(s)
    ensures AllDigits(Zeros(k) + s)
    ensures Value(Zeros(k) + s) == Value(s)
    decreases k
  {
    if k == 0 {
      assert Zeros(k) + s == s;
    } else {
      var rest := Zeros(k - 1) + s;
      assert Zeros(k) + s == ['0'] + rest;
      ValueLeadingZeros(k - 1, s);
      ValueZeroCons(rest);
    }
  }

  /** Zero padding is invisible to the parser. */
  lemma ParseZeroPad(n: nat, width: nat)
    ensures ParseNat(ZeroPad(Show(n), width)) == Some(n)
  {
    ValueShow(n);
    if |Show(n)| < width {
      ValueLeadingZeros(width - |Show(n)|, Show(n));
    }
  }

  /** A '-' followed by a digit string denoting `v` parses as `-v`. */
  lemma ParseSigned(s: string, digits: string, v: nat)
    requires s == "-" + digits && ParseNat(digits) == Some(v)
    ensures ParseInt(s) == Some(0 - v)
  {
    assert s[0] == '-' && s[1..] == digits;
  }

  lemma FormatNegativeRoundTrip(n: int, width: nat)
    requires n < 0
    ensures ParseInt(FormatInt(n, width)) == Some(n)
  {
    var w := if width > 0 then width - 1 else 0;
    var m: nat := -n;
    var digits := ZeroPad(Show(m), w);
    FormatIntNegative(n, width, digits);
    ParseZeroPad(m, w);
    ParseSigned(FormatInt(n, width), digits, m);
  }

  lemma FormatIntNegative(n: int, width: nat, digits: string)
    requires n < 0 && digits == ZeroPad(Show(-n), if width > 0 then width - 1 else 0)
    ensures FormatInt(n, width) == "-" + digits
  {
  }

  lemma FormatUnsignedRoundTrip(n: nat, width: nat)
    ensures ParseInt(FormatInt(n, width)) == Some(n)
  {
    var r := FormatInt(n, width);
    ParseZeroPad(n, width);
    assert IsDigit(r[0]);
  }

  /** Reading back any formatted integer, at any width, gives the integer. */
  lemma FormatIntRoundTrip(n: int, width: nat)
    ensures ParseInt(FormatInt(n, width)) == Some(n)
  {
    if n < 0 {
      FormatNegativeRoundTrip(n, width);
    } else {
      FormatUnsignedRoundTrip(n, width);
    }
  }
}

=== FILE: muxing.dfy ===
/** The call `add_subtitle_to_video` makes to the media engine, as data: the
    input files, the output file and the keyword options. The media engine
    itself is not modelled. In soft mode the options are two dict displays
    unpacked with `**`; the second display names the key "metadata:s:s:0"
    twice, so only its last value survives. */
module Muxing {
  import opened Wrappers
  import opened Naming

  /** `entries[i]` is the last entry with its key. */
  predicate LastWithKey(entries: seq<(string, string)>, i: nat)
    requires i < |entries|
  {
    forall j :: i < j < |entries| ==> entries[j].0 != entries[i].0
  }

  /** `d` holds what a dict display of `entries` holds: exactly the keys of
      the entries, each with the value of the last entry that has it. */
  predicate Displays(entries: seq<(string, string)>, d: map<string, string>) {
    && (forall i :: 0 <= i < |entries| ==> entries[i].0 in d)
    && (forall k :: k in d ==> exists i :: 0 <= i < |entries| && entries[i].0 == k)
    && (forall i :: 0 <= i < |entries| && LastWithKey(entries, i) ==> d[entries[i].0] == entries[i].1)
  }

  /** A dict display `{k0: v0, k1: v1, ...}`: entries are inserted in order,
      so a repeated key keeps the value of its last entry. */
  function DictDisplay(entries: seq<(string, string)>): (d: map<string, string>)
    ensures Displays(entries, d)
    decreases |entries|
  {
    if |entries| == 0 then map[]
    else
      var last := entries[|entries| - 1];
      var d := DictDisplay(entries[..|entries| - 1]);
      DisplayStep(entries, d);
      d[last.0 := last.1]
  }

  /** Inserting the final entry into the display of all the others gives
      the display of `entries`. */
  lemma DisplayStep(entries: seq<(string, string)>, d: map<string, string>)
    requires |entries| > 0
    requires Displays(entries[..|entries| - 1], d)
    ensures Displays(entries, d[entries[|entries| - 1].0 := entries[|entries| - 1].1])
  {
    var init := entries[..|entries| - 1];
    var last := entries[|entries| - 1];
    var r := d[last.0 := last.1];
    assert forall j :: 0 <= j < |init| ==> entries[j] == init[j];
    forall i | 0 <= i < |entries| && LastWithKey(entries, i)
      ensures r[entries[i].0] == entries[i].1
    {
      if i < |init| {
        assert entries[i].0 != entries[|init|].0;
        assert LastWithKey(init, i);
      }
    }
    forall k | k in r ensures exists i :: 0 <= i < |entries| && entries[i].0 == k {
      if k == last.0 {
        assert entries[|init|].0 == k;
      } else {
        var i :| 0 <= i < |init| && init[i].0 == k;
        assert entries[i].0 == k;
      }
    }
  }

  /** `f(**a, **b)`: the keyword arguments of both dicts, or None where
      Python raises TypeError because a keyword is given twice. */
  function UnpackKwargs(a: map<string, string>, b: map<string, string>): (r: Option<map<string, string>>)
    ensures r.Some? <==> a.Keys !! b.Keys
    ensures r.Some? ==> r.value.Keys == a.Keys + b.Keys
    ensures r.Some? ==> forall k :: k in a ==> r.value[k] == a[k]
    ensures r.Some? ==> forall k :: k in b ==> r.value[k] == b[k]
  {
    if a.Keys !! b.Keys then Some(a + b) else None
  }

  /** The soft-mode keyword options of main.py line 56. */
  function SoftOptions(language: string, title: string): Option<map<string, string>> {
    UnpackKwargs(
      DictDisplay([("c", "copy"), ("c:s", "mov_text")]),
      DictDisplay([("metadata:s:s:0", "language=" + language), ("metadata:s:s:0", "title=" + title)]))
  }

  /** Only the title tag survives: the options hold exactly the codec
      choices and `title=<track title>`; the language tag is lost, and the
      unpacking never raises. */
  lemma SoftOptionsLastWins(language: string, title: string)
    ensures SoftOptions(language, title)
      == Some(map["c" := "copy", "c:s" := "mov_text", "metadata:s:s:0" := "title=" + title])
    ensures SoftOptions(language, title).value.Keys == {"c", "c:s", "metadata:s:s:0"}
    ensures "language=" + language !in SoftOptions(language, title).value.Values
  {
    var codecs := [("c", "copy"), ("c:s", "mov_text")];
    var metadata := [("metadata:s:s:0", "language=" + language), ("metadata:s:s:0", "title=" + title)];
    assert codecs[..1] == [("c", "copy")];
    assert DictDisplay(codecs) == map["c" := "copy", "c:s" := "mov_text"];
    assert metadata[..1] == [("metadata:s:s:0", "language=" + language)];
    assert DictDisplay(metadata) == map["metadata:s:s:0" := "title=" + title];
    var a := map["c" := "copy", "c:s" := "mov_text"];
    var b := map["metadata:s:s:0" := "title=" + title];
    var m := map["c" := "copy", "c:s" := "mov_text", "metadata:s:s:0" := "title=" + title];
    assert a.Keys !! b.Keys;
    assert a + b == m;
    assert ("language=" + language)[0] == 'l';
    assert forall k :: k in m ==> m[k][0] != 'l';
  }

  /** One media-engine call: the files it reads, the file it writes, and its
      keyword options (None where building them raises). */
  datatype MuxCall = MuxCall(inputs: seq<string>, output: string, options: Option<map<string, string>>)

  /** `add_subtitle_to_video`: the video is reopened under the name rebuilt
      from the base name; soft mode adds the subtitle file as a second input
      stream with stream-copy options, hard mode burns it in through the
      `vf` filter option. */
  function AddSubtitleToVideo(name: string, soft: bool, subtitleFile: string, language: string): (call: MuxCall)
    ensures |call.inputs| >= 1 && call.inputs[0] == InputPath(name)
    ensures call.output == OutputPath(name)
    ensures soft ==> |call.inputs| == 2 && call.inputs[1] == subtitleFile
    ensures soft ==> call.options == Some(map["c" := "copy", "c:s" := "mov_text",
                                              "metadata:s:s:0" := "title=" + TrackTitle(subtitleFile)])
    ensures !soft ==> |call.inputs| == 1
    ensures !soft ==> call.options == Some(map["vf" := "subtitles=" + subtitleFile])
  {
    SoftOptionsLastWins(language, TrackTitle(subtitleFile));
    if soft then
      MuxCall([InputPath(name), subtitleFile], OutputPath(name), SoftOptions(language, TrackTitle(subtitleFile)))
    else
      MuxCall([InputPath(name)], OutputPath(name), Some(map["vf" := "subtitles=" + subtitleFile]))
  }
}

=== FILE: naming.dfy ===
/** The file names the pipeline derives from the input video path by
    string surgery: the base name (every ".mp4" removed, wherever it
    occurs), the extracted audio file, the subtitle file, the reopened
    input video, the output video, and the subtitle track title. */
module Naming {
  import opened Text

  /** `input_video.replace(".mp4", "")` */
  function BaseName(input: string): string {
    StripExtension(input, ".mp4")
  }

  /** `f"audio-{input_video_name}.wav"` */
  function AudioPath(name: string): (path: string)
    ensures |path| == |name| + 10
    ensures path[..6] == "audio-" && path[|path| - 4..] == ".wav"
    ensures path[6..|path| - 4] == name
  {
    "audio-" + name + ".wav"
  }

  /** `f"sub-{input_video_name}.{language}.srt"` */
  function SubtitlePath(name: string, language: string): (path: string)
    ensures |path| == |name| + |language| + 9
    ensures path[..4] == "sub-" && path[|path| - 4..] == ".srt"
    ensures path[4..4 + |name|] == name && path[4 + |name|] == '.'
    ensures path[5 + |name|..|path| - 4] == language
  {
    "sub-" + name + "." + language + ".srt"
  }

  /** `f"{input_video_name}.mp4"`: the video `add_subtitle_to_video` opens. */
  function InputPath(name: string): (path: string)
    ensures |path| == |name| + 4
    ensures path[..|name|] == name && path[|name|..] == ".mp4"
  {
    name + ".mp4"
  }

  /** `f"output-{input_video_name}.mp4"` */
  function OutputPath(name: string): (path: string)
    ensures |path| == |name| + 11
    ensures path[..7] == "output-" && path[|path| - 4..] == ".mp4"
    ensures path[7..|path| - 4] == name
  {
    "output-" + name + ".mp4"
  }

  /** `subtitle_file.replace(".srt", "")` */
  function TrackTitle(subtitleFile: string): string {
    StripExtension(subtitleFile, ".srt")
  }

  /** A file extension such as ".mp4" or ".srt": a dot, then no other dot. */
  predicate IsExtension(ext: string) {
    |ext| > 0 && ext[0] == '.' && '.' !in ext[1..]
  }

  /** `path.replace(ext, "")`, as both name derivations use it: a path
      without the extension is unchanged, and `<stem><ext>` whose stem does
      not contain the extension loses exactly that suffix. */
  function StripExtension(path: string, ext: string): (stem: string)
    ensures !Contains(path, ext) ==> stem == path
    ensures IsExtension(ext) && |path| >= |ext| && path[|path| - |ext|..] == ext
      && !Contains(path[..|path| - |ext|], ext)
      ==> stem == path[..|path| - |ext|]
  {
    ReplaceAbsent(path, ext, "");
    if IsExtension(ext) then
      (DotExtensionBorderFree(ext); RemoveSoleSuffix(path, ext); Replace(path, ext, ""))
    else Replace(path, ext, "")
  }

  /** An extension cannot overlap itself: each proper prefix starts with
      the dot, and no proper suffix does. */
  lemma DotExtensionBorderFree(ext: string)
    requires IsExtension(ext)
    ensures BorderFree(ext)
  {
    forall k | 0 < k < |ext| ensures ext[..k] != ext[|ext| - k..] {
      assert ext[|ext| - k..][0] == ext[1..][|ext| - k - 1];
      assert ext[..k][0] == '.' && ext[|ext| - k..][0] != '.';
    }
  }

  /** Stripping a trailing ".mp4" from a name that contains no other
      ".mp4" gives the name back, so the video path rebuilt from the base
      name is the original input path. */
  lemma BaseNameRoundTrip(name: string)
    requires !Contains(name, ".mp4")
    ensures BaseName(InputPath(name)) == name
    ensures InputPath(BaseName(name + ".mp4")) == name + ".mp4"
  {
    DotExtensionBorderFree(".mp4");
    ReplaceAt(name, ".mp4", "", "");
    assert name + ".mp4" + "" == InputPath(name);
  }

  /** Every ".mp4" is removed, not only a trailing one: a path that is
      ".mp4"-free pieces joined by ".mp4" loses all the separators. */
  lemma BaseNameRemovesEvery(pieces: seq<string>)
    requires forall i :: 0 <= i < |pieces| ==> !Contains(pieces[i], ".mp4")
    ensures BaseName(Join(pieces, ".mp4")) == Join(pieces, "")
  {
    DotExtensionBorderFree(".mp4");
    ReplaceJoin(pieces, ".mp4", "");
  }

  /** "a.mp4b.mp4" has base name "ab". */
  lemma BaseNameInnerOccurrence()
    ensures BaseName("a.mp4b.mp4") == "ab"
  {
    assert !Contains("a", ".mp4") && !Contains("b", ".mp4");
    BaseNameRemovesEvery(["a", "b", ""]);
    assert Join(["a", "b", ""], ".mp4") == "a.mp4b.mp4";
    assert Join(["a", "b", ""], "") == "ab";
  }

  /** Every ".srt" is removed from the subtitle file name too: for the
      base name "a.srt" and language "en" the track title is "sub-a.en". */
  lemma TrackTitleInnerOccurrence()
    ensures SubtitlePath("a.srt", "en") == "sub-a.srt.en.srt"
    ensures TrackTitle(SubtitlePath("a.srt", "en")) == "sub-a.en"
  {
    assert SubtitlePath("a.srt", "en") == "sub-a.srt.en.srt";
    assert Join(["sub-a", ".en", ""], ".srt") == "sub-a.srt.en.srt";
    assert Join(["sub-a", ".en", ""], "") == "sub-a.en";
    assert !Contains("sub-a", ".srt") by {
      assert "sub-a"[..4][0] != ".srt"[0];
      assert "sub-a"[1..] == "ub-a";
      assert "ub-a"[..4][0] != ".srt"[0];
      assert !Contains("ub-a"[1..], ".srt");
    }
    assert !Contains(".en", ".srt");
    assert !Contains("", ".srt");
    DotExtensionBorderFree(".srt");
    ReplaceJoin(["sub-a", ".en", ""], ".srt", "");
  }

  /** An input that does not end in ".mp4" is not what gets reopened: the
      video opened for muxing is "a.mkv.mp4", not "a.mkv". */
  lemma OtherContainerNotReopened()
    ensures BaseName("a.mkv") == "a.mkv"
    ensures InputPath(BaseName("a.mkv")) == "a.mkv.mp4"
  {
    assert !Contains("a.mkv", ".mp4") by {
      assert "a.mkv"[..4] != ".mp4";
      assert "a.mkv"[1..] == ".mkv";
      assert ".mkv"[..4][2] != ".mp4"[2];
      assert !Contains(".mkv"[1..], ".mp4");
    }
  }

  /** The subtitle track is titled with the subtitle file name minus its
      ".srt" extension, when no other ".srt" occurs in it. */
  lemma TrackTitleRoundTrip(name: string, language: string)
    requires !Contains("sub-" + name + "." + language, ".srt")
    ensures TrackTitle(SubtitlePath(name, language)) == "sub-" + name + "." + language
  {
    DotExtensionBorderFree(".srt");
    ReplaceAt("sub-" + name + "." + language, ".srt", "", "");
    assert "sub-" + name + "." + language + ".srt" + "" == SubtitlePath(name, language);
  }
}

=== FILE: pipeline.dfy ===
/** `run`: the four stages in order, with the two external services
    (speech recognition and the media engine) left out. What the pipeline
    itself decides is modelled: the file names each stage uses, the
    subtitle text, and the final media-engine call. The detected language
    and the transcribed segments are inputs, as the speech model would
    deliver them. Soft-subtitle mode is fixed on, as in `run`. */
module Pipeline {
  import opened Wrappers
  import opened Text
  import opened Naming
  import opened Subtitles
  import opened Muxing

  /** The extraction stage: the video the media engine reads, the audio
      file it writes (both returned by `extract_audio`), and the base name
      later stages reuse. */
  datatype AudioJob = AudioJob(video: string, audio: string, name: string)

  /** `extract_audio(input_video)`, minus the media-engine call. */
  function ExtractAudio(input: string): (job: AudioJob)
    ensures job.video == input
    ensures job.audio == AudioPath(job.name)
    ensures !Contains(input, ".mp4") ==> job.name == input
  {
    var name := BaseName(input);
    AudioJob(input, AudioPath(name), name)
  }

  /** The subtitle file `generate_subtitle_file` writes: its path and text. */
  datatype SubtitleFile = SubtitleFile(path: string, text: string)

  /** `generate_subtitle_file(input_video_name, language, segments)`,
      minus the file write. */
  function GenerateSubtitleFile(name: string, language: string, segs: seq<Segment>): (file: SubtitleFile)
    ensures file.path == SubtitlePath(name, language)
    ensures file.text == "" <==> |segs| == 0
  {
    SubtitleFile(SubtitlePath(name, language), Render(segs))
  }

  /** Everything one run decides. */
  datatype RunPlan = RunPlan(extract: AudioJob, subtitles: SubtitleFile, mux: MuxCall)

  /** `run(input_video, timing)`, given the transcription result; the timing
      printout does not influence any of it. */
  function Run(input: string, language: string, segs: seq<Segment>): (plan: RunPlan)
    ensures |plan.mux.inputs| == 2 && plan.mux.inputs[1] == plan.subtitles.path
    ensures plan.mux.output == OutputPath(plan.extract.name)
  {
    var extracted := ExtractAudio(input);
    var subtitles := GenerateSubtitleFile(extracted.name, language, segs);
    RunPlan(extracted, subtitles, AddSubtitleToVideo(extracted.name, true, subtitles.path, language))
  }

  /** For an input `<name>.mp4` whose name holds no other ".mp4" and whose
      subtitle stem holds no ".srt", every derived name is as documented:
      the audio, subtitle and output files are named after `<name>`, the
      muxing stage reopens exactly the input video and the subtitle file
      just written, and the subtitle track is titled with the subtitle
      file's stem (the language tag being lost). */
  lemma RunNames(name: string, language: string, segs: seq<Segment>)
    requires !Contains(name, ".mp4")
    requires !Contains("sub-" + name + "." + language, ".srt")
    ensures var plan := Run(name + ".mp4", language, segs);
      && plan.extract.video == name + ".mp4"
      && plan.extract.audio == "audio-" + name + ".wav"
      && plan.subtitles.path == "sub-" + name + "." + language + ".srt"
      && plan.subtitles.text == Render(segs)
      && plan.mux.inputs == [plan.extract.video, plan.subtitles.path]
      && plan.mux.output == "output-" + name + ".mp4"
      && plan.mux.options == Some(map["c" := "copy", "c:s" := "mov_text",
                                      "metadata:s:s:0" := "title=sub-" + name + "." + language])
  {
    BaseNameRoundTrip(name);
    TrackTitleRoundTrip(name, language);
    assert "title=" + ("sub-" + name + "." + language) == "title=sub-" + name + "." + language;
  }

  /** An input not ending in ".mp4" makes the muxing stage read a video
      that no earlier stage read or wrote: not the input the audio was
      extracted from, not the audio file, not the subtitle file. */
  lemma RunReopensOtherFile(language: string, segs: seq<Segment>)
    ensures var plan := Run("a.mkv", language, segs);
      && plan.mux.inputs[0] == "a.mkv.mp4"
      && plan.mux.inputs[0] != plan.extract.video
      && plan.mux.inputs[0] != plan.extract.audio
      && plan.mux.inputs[0] != plan.subtitles.path
  {
    OtherContainerNotReopened();
    var reopened := "a.mkv.mp4";
    var audio := AudioPath("a.mkv");
    var subtitles := SubtitlePath("a.mkv", language);
    assert |reopened| != |"a.mkv"|;
    assert audio[1] == 'u' && reopened[1] == '.';
    assert subtitles[0] == 's' && reopened[0] == 'a';
    var plan := Run("a.mkv", language, segs);
    assert plan.extract == AudioJob("a.mkv", audio, "a.mkv");
    assert plan.subtitles.path == subtitles;
  }
}

=== FILE: subtitles.dfy ===
/** The text `generate_subtitle_file` builds: one numbered cue block per
    transcribed segment, in input order, each line ending in a space before
    its line break. The file write itself is not modelled. A reader for the
    rendered text is included as the renderer's inverse. */
module Subtitles {
  import opened Wrappers
  import opened Decimal
  import opened Text
  import opened TimeFormat

  /** One transcribed utterance as the speech model delivers it. */
  datatype Segment = Segment(start: real, end: real, text: string)

  /** One cue as read back from rendered text. */
  datatype Cue = Cue(index: nat, start: Clock, end: Clock, text: string)

  /** The block the loop body appends for the segment at 1-based position
      `index`: index line, timing line, text line, blank line. */
  function CueBlock(index: nat, start: string, end: string, text: string): (block: string)
    ensures |block| >= 2 && block[|block| - 2..] == "\n\n"
  {
    Show(index) + " \n" + start + " --> " + end + " \n" + text + " \n\n"
  }

  /** The blocks of `segs`, numbered from `first` on, with timestamps
      printed by `stamp`. */
  function RenderWith(segs: seq<Segment>, first: nat, stamp: real -> string): (doc: string)
    ensures doc == "" <==> |segs| == 0
    decreases |segs|
  {
    if |segs| == 0 then ""
    else
      CueBlock(first, stamp(segs[0].start), stamp(segs[0].end), segs[0].text)
        + RenderWith(segs[1..], first + 1, stamp)
  }

  /** The whole subtitle text, timestamps printed by `format_time`. */
  function Render(segs: seq<Segment>): (doc: string)
    ensures doc == "" <==> |segs| == 0
  {
    RenderWith(segs, 1, FormatTime)
  }

  /** Appending a segment appends exactly one block, numbered after all
      the earlier ones; nothing rendered before it changes. */
  lemma {:induction false} RenderWithAppend(segs: seq<Segment>, g: Segment, first: nat, stamp: real -> string)
    ensures RenderWith(segs + [g], first, stamp)
      == RenderWith(segs, first, stamp) + CueBlock(first + |segs|, stamp(g.start), stamp(g.end), g.text)
    decreases |segs|
  {
    if |segs| == 0 {
      assert [g][1..] == [];
    } else {
      assert (segs + [g])[1..] == segs[1..] + [g];
      RenderWithAppend(segs[1..], g, first + 1, stamp);
      RenderWithCons(segs + [g], first, stamp);
      RenderWithCons(segs, first, stamp);
      Associate(CueBlock(first, stamp(segs[0].start), stamp(segs[0].end), segs[0].text),
        RenderWith(segs[1..], first + 1, stamp),
        CueBlock(first + |segs|, stamp(g.start), stamp(g.end), g.text));
    }
  }

  lemma RenderAppend(segs: seq<Segment>, g: Segment)
    ensures Render(segs + [g])
      == Render(segs) + CueBlock(|segs| + 1, FormatTime(g.start), FormatTime(g.end), g.text)
  {
    RenderWithAppend(segs, g, 1, FormatTime);
  }

  /** The three appends of one loop iteration add one block. */
  lemma AppendBlock(text: string, index: nat, start: string, end: string, line: string)
    ensures text + Show(index) + " \n" + start + " --> " + end + " \n" + line + " \n\n"
      == text + CueBlock(index, start, end, line)
  {
  }

  lemma RenderPrefixStep(segs: seq<Segment>, index: nat)
    requires index < |segs|
    ensures Render(segs[..index + 1]) == Render(segs[..index])
      + CueBlock(index + 1, FormatTime(segs[index].start), FormatTime(segs[index].end), segs[index].text)
  {
    assert segs[..index + 1] == segs[..index] + [segs[index]];
    RenderAppend(segs[..index], segs[index]);
  }

  /** One iteration of the loop extends the rendering of a prefix by the
      next segment. */
  lemma LoopStep(segs: seq<Segment>, index: nat, before: string, after: string)
    requires index < |segs| && before == Render(segs[..index])
    requires after == before + Show(index + 1) + " \n"
      + FormatTime(segs[index].start) + " --> " + FormatTime(segs[index].end) + " \n"
      + segs[index].text + " \n\n"
    ensures after == Render(segs[..index + 1])
  {
    var g := segs[index];
    AppendBlock(before, index + 1, FormatTime(g.start), FormatTime(g.end), g.text);
    RenderPrefixStep(segs, index);
  }

  /** The loop of `generate_subtitle_file`: `enumerate` from 0, the cue
      number is `index + 1`, and three pieces are appended per segment. */
  method RenderSubtitles(segs: seq<Segment>) returns (text: string)
    ensures text == Render(segs)
  {
    text := "";
    var index := 0;
    while index < |segs|
      invariant 0 <= index <= |segs|
      invariant text == Render(segs[..index])
    {
      var segment := segs[index];
      var segmentStart := FormatTime(segment.start);
      var segmentEnd := FormatTime(segment.end);
      ghost var before := text;
      text := text + Show(index + 1) + " \n";
      text := text + segmentStart + " --> " + segmentEnd + " \n";
      text := text + segment.text + " \n\n";
      LoopStep(segs, index, before, text);
      index := index + 1;
    }
    assert segs[..index] == segs;
  }

  // Reading rendered text back.

  /** "<n> " */
  function ParseIndexLine(line: string): Option<nat> {
    if |line| > 0 && line[|line| - 1] == ' ' then ParseNat(line[..|line| - 1]) else None
  }

  /** "<start> --> <end> " */
  function ParseTimingLine(line: string): Option<(Clock, Clock)> {
    var words := SplitOn(line, ' ');
    if |words| == 4 && words[1] == "-->" && words[3] == "" then
      var start := ParseTime(words[0]);
      var end := ParseTime(words[2]);
      if start.Some? && end.Some? then Some((start.value, end.value)) else None
    else None
  }

  /** "<text> " */
  function ParseTextLine(line: string): Option<string> {
    if |line| > 0 && line[|line| - 1] == ' ' then Some(line[..|line| - 1]) else None
  }

  /** Groups of four lines: index, timing, text, blank. */
  function ParseCues(lines: seq<string>): Option<seq<Cue>>
    decreases |lines|
  {
    if |lines| == 0 then Some([])
    else if |lines| < 4 || lines[3] != "" then None
    else
      var index := ParseIndexLine(lines[0]);
      var timing := ParseTimingLine(lines[1]);
      var text := ParseTextLine(lines[2]);
      var rest := ParseCues(lines[4..]);
      if index.Some? && timing.Some? && text.Some? && rest.Some? then
        Some([Cue(index.value, timing.value.0, timing.value.1, text.value)] + rest.value)
      else None
  }

  /** Splits the text into lines; the text must end with a line break. */
  function ParseDocument(doc: string): Option<seq<Cue>> {
    var lines := SplitOn(doc, '\n');
    if lines[|lines| - 1] == "" then ParseCues(lines[..|lines| - 1]) else None
  }

  /** The cue a segment should read back as. */
  function CueOf(index: nat, g: Segment): Cue {
    Cue(index, Split(g.start), Split(g.end), g.text)
  }

  function Expected(segs: seq<Segment>, first: nat): (cues: seq<Cue>)
    ensures |cues| == |segs|
    ensures forall k :: 0 <= k < |segs| ==> cues[k] == CueOf(first + k, segs[k])
  {
    seq(|segs|, k requires 0 <= k < |segs| => CueOf(first + k, segs[k]))
  }

  predicate SingleLineTexts(segs: seq<Segment>) {
    forall k :: 0 <= k < |segs| ==> '\n' !in segs[k].text
  }

  /** What the renderer needs of a timestamp printer to be read back: no
      blank in its output, and ParseTime recovers the clock reading. */
  predicate Readable(stamp: real -> string, x: real) {
    ' ' !in stamp(x) && '\n' !in stamp(x) && ParseTime(stamp(x)) == Some(Split(x))
  }

  /** The four lines of one block, without their line breaks. */
  function BlockLines(index: nat, start: string, end: string, text: string): seq<string> {
    [Show(index) + " ", start + " --> " + end + " ", text + " ", ""]
  }

  function AllLines(segs: seq<Segment>, first: nat, stamp: real -> string): seq<string>
    decreases |segs|
  {
    if |segs| == 0 then []
    else
      BlockLines(first, stamp(segs[0].start), stamp(segs[0].end), segs[0].text)
        + AllLines(segs[1..], first + 1, stamp)
  }

  /** Splitting four newline-free lines, each followed by a line break. */
  lemma SplitFourLines(a: string, b: string, c: string, rest: string)
    requires '\n' !in a && '\n' !in b && '\n' !in c
    ensures SplitOn(a + "\n" + b + "\n" + c + "\n" + "\n" + rest, '\n')
      == [a, b, c, ""] + SplitOn(rest, '\n')
  {
    var t3 := "" + ['\n'] + rest;
    var t2 := c + ['\n'] + t3;
    var t1 := b + ['\n'] + t2;
    assert a + "\n" + b + "\n" + c + "\n" + "\n" + rest == a + ['\n'] + t1;
    SplitOnCons(a, '\n', t1);
    SplitOnCons(b, '\n', t2);
    SplitOnCons(c, '\n', t3);
    SplitOnCons("", '\n', rest);
  }

  lemma ShowHasNoBlank(n: nat)
    ensures ' ' !in Show(n) && '\n' !in Show(n)
  {
    var s := Show(n);
    forall i | 0 <= i < |s| ensures s[i] != ' ' && s[i] != '\n' {
      assert IsDigit(s[i]);
    }
  }

  lemma BlockSplitsIntoLines(index: nat, start: string, end: string, text: string, rest: string)
    requires '\n' !in start && '\n' !in end && '\n' !in text
    ensures SplitOn(CueBlock(index, start, end, text) + rest, '\n')
      == BlockLines(index, start, end, text) + SplitOn(rest, '\n')
  {
    var a := Show(index) + " ";
    var b := start + " --> " + end + " ";
    var c := text + " ";
    ShowHasNoBlank(index);
    assert CueBlock(index, start, end, text) + rest == a + "\n" + b + "\n" + c + "\n" + "\n" + rest;
    SplitFourLines(a, b, c, rest);
  }

  lemma Associate(a: string, b: string, c: string)
    ensures a + (b + c) == a + b + c
  {
  }

  /** The first block followed by the rest of the rendering. */
  lemma RenderWithCons(segs: seq<Segment>, first: nat, stamp: real -> string)
    requires |segs| > 0
    ensures RenderWith(segs, first, stamp)
      == CueBlock(first, stamp(segs[0].start), stamp(segs[0].end), segs[0].text)
        + RenderWith(segs[1..], first + 1, stamp)
    ensures AllLines(segs, first, stamp)
      == BlockLines(first, stamp(segs[0].start), stamp(segs[0].end), segs[0].text)
        + AllLines(segs[1..], first + 1, stamp)
  {
  }

  lemma {:induction false} RenderLines(segs: seq<Segment>, first: nat, stamp: real -> string)
    requires SingleLineTexts(segs)
    requires forall x :: '\n' !in stamp(x)
    ensures SplitOn(RenderWith(segs, first, stamp), '\n') == AllLines(segs, first, stamp) + [""]
    decreases |segs|
  {
    if |segs| > 0 {
      var g := segs[0];
      var rest := RenderWith(segs[1..], first + 1, stamp);
      assert '\n' !in g.text;
      assert SingleLineTexts(segs[1..]) by {
        forall k | 0 <= k < |segs| - 1 ensures '\n' !in segs[1..][k].text {
          assert segs[1..][k] == segs[k + 1];
        }
      }
      RenderLines(segs[1..], first + 1, stamp);
      BlockSplitsIntoLines(first, stamp(g.start), stamp(g.end), g.text, rest);
      RenderWithCons(segs, first, stamp);
    }
  }

  lemma ParseIndexLineOf(n: nat)
    ensures ParseIndexLine(Show(n) + " ") == Some(n)
  {
    var line := Show(n) + " ";
    assert line[..|line| - 1] == Show(n);
    ValueShow(n);
  }

  /** Words free of spaces are recovered from `a --> b `. */
  lemma SplitTimingLine(a: string, b: string)
    requires ' ' !in a && ' ' !in b
    ensures SplitOn(a + " --> " + b + " ", ' ') == [a, "-->", b, ""]
  {
    var t3 := b + [' '] + "";
    var t2 := "-->" + [' '] + t3;
    assert a + " --> " + b + " " == a + [' '] + t2;
    SplitOnCons(a, ' ', t2);
    SplitOnCons("-->", ' ', t3);
    SplitOnCons(b, ' ', "");
  }

  lemma ParseTimingLineOf(start: string, end: string, c: Clock, d: Clock)
    requires ' ' !in start && ' ' !in end
    requires ParseTime(start) == Some(c) && ParseTime(end) == Some(d)
    ensures ParseTimingLine(start + " --> " + end + " ") == Some((c, d))
  {
    SplitTimingLine(start, end);
  }

  lemma ParseCuesStep(lines: seq<string>, index: nat, c: Clock, d: Clock, text: string, cues: seq<Cue>)
    requires |lines| >= 4 && lines[3] == ""
    requires ParseIndexLine(lines[0]) == Some(index)
    requires ParseTimingLine(lines[1]) == Some((c, d))
    requires ParseTextLine(lines[2]) == Some(text)
    requires ParseCues(lines[4..]) == Some(cues)
    ensures ParseCues(lines) == Some([Cue(index, c, d, text)] + cues)
  {
  }

  lemma ParseTextLineOf(text: string)
    ensures ParseTextLine(text + " ") == Some(text)
  {
    var line := text + " ";
    assert line[..|line| - 1] == text;
  }

  /** The four lines of a block, then the lines that follow it. */
  lemma BlockLinesThenRest(index: nat, start: string, end: string, text: string, rest: seq<string>)
    ensures var lines := BlockLines(index, start, end, text) + rest;
      && |lines| >= 4 && lines[4..] == rest
      && lines[0] == Show(index) + " " && lines[1] == start + " --> " + end + " "
      && lines[2] == text + " " && lines[3] == ""
  {
    var lines := BlockLines(index, start, end, text) + rest;
    assert lines[4..] == rest;
  }

  lemma ParseBlock(index: nat, start: string, end: string, text: string, c: Clock, d: Clock,
                   rest: seq<string>, cues: seq<Cue>)
    requires ' ' !in start && ' ' !in end
    requires ParseTime(start) == Some(c) && ParseTime(end) == Some(d)
    requires ParseCues(rest) == Some(cues)
    ensures ParseCues(BlockLines(index, start, end, text) + rest) == Some([Cue(index, c, d, text)] + cues)
  {
    var lines := BlockLines(index, start, end, text) + rest;
    BlockLinesThenRest(index, start, end, text, rest);
    ParseIndexLineOf(index);
    ParseTimingLineOf(start, end, c, d);
    ParseTextLineOf(text);
    ParseCuesStep(lines, index, c, d, text, cues);
  }

  lemma ExpectedCons(segs: seq<Segment>, first: nat)
    requires |segs| > 0
    ensures Expected(segs, first) == [CueOf(first, segs[0])] + Expected(segs[1..], first + 1)
  {
  }

  lemma {:induction false} ParseAllLines(segs: seq<Segment>, first: nat, stamp: real -> string)
    requires forall x :: Readable(stamp, x)
    ensures ParseCues(AllLines(segs, first, stamp)) == Some(Expected(segs, first))
    decreases |segs|
  {
    if |segs| > 0 {
      var g := segs[0];
      assert Readable(stamp, g.start) && Readable(stamp, g.end);
      ParseAllLines(segs[1..], first + 1, stamp);
      ParseBlock(first, stamp(g.start), stamp(g.end), g.text, Split(g.start), Split(g.end),
        AllLines(segs[1..], first + 1, stamp), Expected(segs[1..], first + 1));
      ExpectedCons(segs, first);
    }
  }

  /** For any readable timestamp printer, the rendered text reads back as
      one cue per segment, in order. */
  lemma RenderWithRoundTrip(segs: seq<Segment>, stamp: real -> string)
    requires SingleLineTexts(segs)
    requires forall x :: Readable(stamp, x)
    ensures ParseDocument(RenderWith(segs, 1, stamp)) == Some(Expected(segs, 1))
  {
    assert forall x :: '\n' !in stamp(x) by {
      forall x ensures '\n' !in stamp(x) {
        assert Readable(stamp, x);
      }
    }
    RenderLines(segs, 1, stamp);
    var lines := AllLines(segs, 1, stamp) + [""];
    assert lines[..|lines| - 1] == AllLines(segs, 1, stamp);
    ParseAllLines(segs, 1, stamp);
  }

  lemma FormatTimeReadable()
    ensures forall x :: Readable(FormatTime, x)
  {
    forall x ensures Readable(FormatTime, x) {
      FormatTimeHasNoBlank(x);
      FormatTimeRoundTrip(x);
    }
  }

  /** Reading the rendered text back recovers, in input order, one cue per
      segment: its 1-based number, both timestamps exactly as printed (each
      within half a millisecond of the segment's time) and the segment text
      verbatim, provided no segment text contains a line break. */
  lemma RenderRoundTrip(segs: seq<Segment>)
    requires SingleLineTexts(segs)
    ensures ParseDocument(Render(segs)) == Some(Expected(segs, 1))
  {
    FormatTimeReadable();
    RenderWithRoundTrip(segs, FormatTime);
  }
}

=== FILE: text.dfy ===
/** The Python string operations the model relies on: `str.replace`
    (every occurrence, left to right, matches never overlapping), `str.join`,
    against which replacement is stated, and `str.split` on a single
    character, used to read rendered subtitle text back. */
module Text {

  /** `sep.join(parts)` */
  function Join(parts: seq<string>, sep: string): (s: string)
    decreases |parts|
  {
    if |parts| == 0 then ""
    else if |parts| == 1 then parts[0]
    else parts[0] + sep + Join(parts[1..], sep)
  }

  /** `s.split(c)`: the maximal runs between occurrences of `c`; always at
      least one part, and no part contains `c`. */
  function SplitOn(s: string, c: char): (parts: seq<string>)
    ensures |parts| >= 1
    ensures forall i :: 0 <= i < |parts| ==> c !in parts[i]
    decreases |s|
  {
    if |s| == 0 then [""]
    else if s[0] == c then [""] + SplitOn(s[1..], c)
    else
      var rest := SplitOn(s[1..], c);
      [[s[0]] + rest[0]] + rest[1..]
  }

  /** Splitting a string that does not contain the separator gives it back whole. */
  lemma {:induction false} SplitOnAbsent(s: string, c: char)
    requires c !in s
    ensures SplitOn(s, c) == [s]
    decreases |s|
  {
    if |s| > 0 {
      SplitOnAbsent(s[1..], c);
      assert [s[0]] + s[1..] == s;
    }
  }

  /** The first separator ends the first part. */
  lemma {:induction false} SplitOnCons(a: string, c: char, b: string)
    requires c !in a
    ensures SplitOn(a + [c] + b, c) == [a] + SplitOn(b, c)
    decreases |a|
  {
    if |a| == 0 {
      assert a + [c] + b == [c] + b;
      assert ([c] + b)[1..] == b;
    } else {
      var s := a + [c] + b;
      assert s[1..] == a[1..] + [c] + b;
      SplitOnCons(a[1..], c, b);
      assert [a[0]] + a[1..] == a;
    }
  }

  /** `pat in s` */
  predicate Contains(s: string, pat: string)
    decreases |s|
  {
    if |s| < |pat| then false
    else s[..|pat|] == pat || Contains(s[1..], pat)
  }

  /** No proper non-empty prefix of `pat` is also a suffix of it, so two
      occurrences of `pat` can never overlap. */
  predicate BorderFree(pat: string) {
    forall k :: 0 < k < |pat| ==> pat[..k] != pat[|pat| - k..]
  }

  /** `s.replace(pat, rep)`: scans left to right, replacing each occurrence
      and resuming after it. An empty pattern matches before every character
      and at the end, as in Python. */
  function Replace(s: string, pat: string, rep: string): string
    decreases |s|
  {
    if |pat| == 0 then
      if |s| == 0 then rep else rep + [s[0]] + Replace(s[1..], pat, rep)
    else if |s| < |pat| then s
    else if s[..|pat|] == pat then rep + Replace(s[|pat|..], pat, rep)
    else [s[0]] + Replace(s[1..], pat, rep)
  }

  /** A match of a border-free pattern cannot start inside a non-empty
      stretch free of it and run on into a following occurrence. */
  lemma NoMatchBefore(a: string, pat: string, b: string)
    requires |pat| > 0 && BorderFree(pat)
    requires |a| > 0 && !Contains(a, pat)
    ensures (a + pat + b)[..|pat|] != pat
  {
    var s := a + pat + b;
    if |a| >= |pat| {
      assert s[..|pat|] == a[..|pat|];
    } else {
      var k := |pat| - |a|;
      assert pat[..k] != pat[|pat| - k..];
      assert s[|a|..|pat|] == pat[..k];
      assert s[..|pat|][|a|..] == pat[..k];
    }
  }

  /** A string with no occurrence of a non-empty pattern is left as it is. */
  lemma {:induction false} ReplaceAbsent(s: string, pat: string, rep: string)
    ensures |pat| > 0 && !Contains(s, pat) ==> Replace(s, pat, rep) == s
    decreases |s|
  {
    if |pat| > 0 && !Contains(s, pat) && |s| >= |pat| {
      ReplaceAbsent(s[1..], pat, rep);
      assert [s[0]] + s[1..] == s;
    }
  }

  /** One step of the scan at an occurrence of the pattern. */
  lemma ReplaceMatch(s: string, pat: string, rep: string)
    requires 0 < |pat| <= |s| && s[..|pat|] == pat
    ensures Replace(s, pat, rep) == rep + Replace(s[|pat|..], pat, rep)
  {
  }

  /** One step of the scan where no occurrence starts. */
  lemma ReplaceSkip(s: string, pat: string, rep: string)
    requires 0 < |pat| <= |s| && s[..|pat|] != pat
    ensures Replace(s, pat, rep) == [s[0]] + Replace(s[1..], pat, rep)
  {
  }

  /** Scanning past a first character at which no occurrence starts. */
  lemma ReplaceCons(s: string, pat: string, rep: string, t: string, u: string)
    requires 0 < |pat| <= |s| && s[..|pat|] != pat
    requires t == s[1..] && Replace(t, pat, rep) == u
    ensures Replace(s, pat, rep) == [s[0]] + u
  {
    ReplaceSkip(s, pat, rep);
  }

  /** An occurrence of a border-free pattern that follows a stretch free of
      it is found exactly there: nothing before it is touched, and the scan
      carries on after it. */
  lemma {:induction false} ReplaceAt(a: string, pat: string, rep: string, b: string)
    requires |pat| > 0 && BorderFree(pat)
    requires !Contains(a, pat)
    ensures Replace(a + pat + b, pat, rep) == a + rep + Replace(b, pat, rep)
    decreases |a|
  {
    if |a| == 0 {
      ReplaceAtStart(pat, rep, b);
      assert a + pat + b == pat + b;
    } else {
      assert !Contains(a[1..], pat);
      ReplaceAt(a[1..], pat, rep, b);
      ReplaceAtStep(a, pat, rep, b);
    }
  }

  /** The scan meets the occurrence at once. */
  lemma ReplaceAtStart(pat: string, rep: string, b: string)
    requires |pat| > 0
    ensures Replace(pat + b, pat, rep) == rep + Replace(b, pat, rep)
  {
    var s := pat + b;
    assert s[..|pat|] == pat;
    assert s[|pat|..] == b;
    ReplaceMatch(s, pat, rep);
  }

  /** The scan steps over the first character of an occurrence-free
      stretch before the occurrence. */
  lemma ReplaceAtStep(a: string, pat: string, rep: string, b: string)
    requires |pat| > 0 && BorderFree(pat)
    requires |a| > 0 && !Contains(a, pat)
    requires Replace(a[1..] + pat + b, pat, rep) == a[1..] + rep + Replace(b, pat, rep)
    ensures Replace(a + pat + b, pat, rep) == a + rep + Replace(b, pat, rep)
  {
    NoMatchBefore(a, pat, b);
    var s := a + pat + b;
    assert s[1..] == a[1..] + pat + b;
    ReplaceCons(s, pat, rep, a[1..] + pat + b, a[1..] + rep + Replace(b, pat, rep));
    assert [a[0]] + (a[1..] + rep + Replace(b, pat, rep)) == a + rep + Replace(b, pat, rep);
  }

  /** Removing a border-free pattern from a string where its only
      occurrence ends the string strips that suffix. */
  lemma RemoveSoleSuffix(s: string, pat: string)
    requires |pat| > 0 && BorderFree(pat)
    ensures |s| >= |pat| && s[|s| - |pat|..] == pat && !Contains(s[..|s| - |pat|], pat)
      ==> Replace(s, pat, "") == s[..|s| - |pat|]
  {
    if |s| >= |pat| && s[|s| - |pat|..] == pat && !Contains(s[..|s| - |pat|], pat) {
      var stem := s[..|s| - |pat|];
      assert s == stem + pat + "";
      ReplaceAt(stem, pat, "", "");
    }
  }

  /** `rep.join(parts) == pat.join(parts).replace(pat, rep)` when no part
      contains the border-free pattern: every occurrence is replaced, not
      only the last one. */
  lemma {:induction false} ReplaceJoin(parts: seq<string>, pat: string, rep: string)
    requires |pat| > 0 && BorderFree(pat)
    requires forall i :: 0 <= i < |parts| ==> !Contains(parts[i], pat)
    ensures Replace(Join(parts, pat), pat, rep) == Join(parts, rep)
    decreases |parts|
  {
    if |parts| == 1 {
      ReplaceAbsent(parts[0], pat, rep);
    } else if |parts| > 1 {
      ReplaceJoin(parts[1..], pat, rep);
      ReplaceAt(parts[0], pat, rep, Join(parts[1..], pat));
    }
  }
}

=== FILE: time_format.dfy ===
/** `format_time`: a seconds offset split into hours, minutes, whole seconds
    and milliseconds and printed as `H:M:S,ms`. Seconds are exact reals, so
    Python's `%` and `math.floor` are exact here and floating-point rounding
    error does not arise. The definitions follow the code as written: the
    milliseconds may round up to 1000 without carrying into the seconds, and
    the seconds field is printed with width 1 (not zero-padded). */
module TimeFormat {
  import opened Wrappers
  import opened Decimal
  import opened Text

  /** `math.floor(x)` */
  function Floor(x: real): (f: int)
    ensures f as real <= x < f as real + 1.0
  {
    x.Floor
  }

  lemma ScaleFraction(k: real, f: real)
    requires k > 0.0 && 0.0 <= f < 1.0
    ensures 0.0 <= k * f < k
  {
  }

  /** Python's `x % k` for a positive divisor: the remainder lies in `[0, k)`
      and differs from `x` by a whole multiple of `k`. */
  function PyMod(x: real, k: real): (r: real)
    requires k > 0.0
    ensures 0.0 <= r < k
    ensures r + k * Floor(x / k) as real == x
  {
    var q := Floor(x / k);
    var frac := x / k - q as real;
    assert x - k * q as real == k * frac;
    ScaleFraction(k, frac);
    x - k * q as real
  }

  /** `n` is a nearest integer to `x`, and the even one when `x` lies exactly
      half-way between two integers. */
  predicate NearestEven(x: real, n: int) {
    && -0.5 <= n as real - x <= 0.5
    && (n as real - x == 0.5 || n as real - x == -0.5 ==> n % 2 == 0)
  }

  /** Python's built-in `round(x)`: to the nearest integer, ties to even. */
  function Round(x: real): (n: int)
    ensures NearestEven(x, n)
  {
    var f := Floor(x);
    var d := x - f as real;
    if d < 0.5 then f
    else if d > 0.5 then f + 1
    else if f % 2 == 0 then f
    else f + 1
  }

  /** Round-half-to-even is the only integer satisfying NearestEven. */
  lemma RoundUnique(x: real, n: int)
    requires NearestEven(x, n)
    ensures n == Round(x)
  {
  }

  /** The four fields `format_time` prints. */
  datatype Clock = Clock(hours: int, minutes: int, seconds: int, millis: int)

  /** The number of seconds a clock reading denotes. */
  function ClockSeconds(c: Clock): real {
    c.hours as real * 3600.0 + c.minutes as real * 60.0 + c.seconds as real
      + c.millis as real / 1000.0
  }

  /** Taking a whole number off moves the floor by that number. */
  lemma FloorShift(x: real, n: int)
    ensures Floor(x - n as real) == Floor(x) - n
  {
    var f := Floor(x);
    assert (f - n) as real <= x - n as real < (f - n) as real + 1.0;
  }

  /** The fractional part of `x`, `x - math.floor(x)`. */
  function Fraction(x: real): (f: real)
    ensures 0.0 <= f < 1.0
  {
    x - Floor(x) as real
  }

  /** A whole-number modulus keeps the fractional part and the whole part
      modulo `k`: `x % k` has the fractional part of `x`, and its floor is
      `math.floor(x) % k`. */
  lemma ModWhole(x: real, k: nat)
    requires k > 0
    ensures Fraction(PyMod(x, k as real)) == Fraction(x)
    ensures Floor(PyMod(x, k as real)) == Floor(x) % k
  {
    var q := Floor(x / k as real);
    var r := PyMod(x, k as real);
    var n := k * q;
    assert r == x - n as real;
    FloorShift(x, n);
    var f := Floor(r);
    assert 0 <= f < k;
    ModUnique(Floor(x), k, q, f);
  }

  /** Euclidean division has one remainder. */
  lemma ModUnique(a: int, k: nat, q: int, f: int)
    requires k > 0 && 0 <= f < k && a == k * q + f
    ensures a % k == f
  {
    var r, d := a % k, a / k;
    assert a == k * d + r;
    var t := q - d;
    assert k * t == k * q - k * d;
    assert k * t == r - f;
    if t >= 1 {
      MulAtLeast(k, t);
    } else if t <= -1 {
      MulAtLeast(k, -t);
    }
  }

  lemma MulAtLeast(k: nat, t: int)
    requires t >= 1
    ensures k * t >= k
  {
    assert k * t == k + k * (t - 1);
    assert k * (t - 1) >= 0;
  }

  /** The whole minutes of `x` modulo 60, read off `x % 3600`. */
  lemma MinutesOfHour(x: real)
    ensures Floor(PyMod(x, 3600.0) / 60.0) == Floor(x / 60.0) % 60
  {
    var q := Floor(x / 3600.0);
    var r := PyMod(x, 3600.0);
    assert r / 60.0 == x / 60.0 - (60 * q) as real;
    FloorShift(x / 60.0, 60 * q);
    var m := Floor(r / 60.0);
    assert 0 <= m < 60;
    assert Floor(x / 60.0) == 60 * q + m;
  }

  /** The field computation of `format_time`, for any real input. */
  function Split(s: real): (c: Clock)
    ensures c.hours == Floor(s / 3600.0)
    ensures 0 <= c.minutes <= 59
    ensures 0 <= c.seconds <= 59
    ensures 0 <= c.millis <= 1000
    ensures -0.0005 <= ClockSeconds(c) - s <= 0.0005
  {
    var hours := Floor(s / 3600.0);
    var inHour := PyMod(s, 3600.0);
    var minutes := Floor(inHour / 60.0);
    var inMinute := PyMod(inHour, 60.0);
    var millis := Round((inMinute - Floor(inMinute) as real) * 1000.0);
    Clock(hours, minutes, Floor(inMinute), millis)
  }

  /** Each field read directly off the input: whole hours, whole minutes
      and whole seconds modulo 60, and the fractional part of the input
      rounded to milliseconds (ties to even), never carried. */
  lemma SplitFields(s: real)
    ensures Split(s).hours == Floor(s / 3600.0)
    ensures Split(s).minutes == Floor(s / 60.0) % 60
    ensures Split(s).seconds == Floor(s) % 60
    ensures Split(s).millis == Round(Fraction(s) * 1000.0)
  {
    SplitMinutes(s);
    SplitSeconds(s);
    SplitMillis(s);
  }

  lemma SplitMinutes(s: real)
    ensures Split(s).minutes == Floor(s / 60.0) % 60
  {
    MinutesOfHour(s);
  }

  lemma SplitSeconds(s: real)
    ensures Split(s).seconds == Floor(s) % 60
  {
    var inHour := PyMod(s, 3600.0);
    ModWhole(s, 3600);
    ModWhole(inHour, 60);
    ModOfMod(Floor(s));
  }

  /** Seconds within the hour, modulo a minute, are seconds modulo a minute. */
  lemma ModOfMod(a: int)
    ensures a % 3600 % 60 == a % 60
  {
    var q, r := a / 3600, a % 3600;
    var q2, f := r / 60, r % 60;
    assert a == 3600 * q + r && r == 60 * q2 + f;
    assert a == 60 * (60 * q + q2) + f;
    ModUnique(a, 60, 60 * q + q2, f);
  }

  lemma SplitMillis(s: real)
    ensures Split(s).millis == Round(Fraction(s) * 1000.0)
  {
    var inHour := PyMod(s, 3600.0);
    ModWhole(s, 3600);
    ModWhole(inHour, 60);
  }

  /** The milliseconds field reaches 1000 exactly when the fractional part
      of the input is at least 0.9995; it is then left uncarried. */
  lemma MillisThousand(s: real)
    ensures Split(s).millis == 1000 <==> Fraction(s) >= 0.9995
  {
    SplitFields(s);
  }

  /** The f-string `{hours:02d}:{minutes:02d}:{seconds:01d},{milliseconds:03d}`. */
  function FormatClock(c: Clock): (t: string)
    ensures |t| >= 11
  {
    FormatInt(c.hours, 2) + ":" + FormatInt(c.minutes, 2) + ":"
      + FormatInt(c.seconds, 1) + "," + FormatInt(c.millis, 3)
  }

  /** `format_time(seconds)` */
  function FormatTime(s: real): (t: string)
    ensures |t| >= 11
  {
    FormatClock(Split(s))
  }

  /** Reads an `H:M:S,ms` timestamp back into its four fields. */
  function ParseTime(t: string): Option<Clock> {
    var fields := SplitOn(t, ':');
    if |fields| != 3 then None
    else
      var last := SplitOn(fields[2], ',');
      if |last| != 2 then None
      else
        var h := ParseInt(fields[0]);
        var m := ParseInt(fields[1]);
        var sec := ParseInt(last[0]);
        var ms := ParseInt(last[1]);
        if h.Some? && m.Some? && sec.Some? && ms.Some? then
          Some(Clock(h.value, m.value, sec.value, ms.value))
        else None
  }

  lemma FieldHasNoSeparator(n: int, width: nat)
    ensures ':' !in FormatInt(n, width) && ',' !in FormatInt(n, width)
    ensures ' ' !in FormatInt(n, width) && '\n' !in FormatInt(n, width)
  {
    var f := FormatInt(n, width);
    forall i | 0 <= i < |f| ensures f[i] != ':' && f[i] != ',' && f[i] != ' ' && f[i] != '\n' {
      assert IsDigit(f[i]) || f[i] == '-';
    }
  }

  /** ParseTime reads the fields that ':' and ',' delimit. */
  lemma ParseTimeFields(t: string, h: string, m: string, sec: string, ms: string, c: Clock)
    requires SplitOn(t, ':') == [h, m, sec + [','] + ms]
    requires SplitOn(sec + [','] + ms, ',') == [sec, ms]
    requires ParseInt(h) == Some(c.hours) && ParseInt(m) == Some(c.minutes)
    requires ParseInt(sec) == Some(c.seconds) && ParseInt(ms) == Some(c.millis)
    ensures ParseTime(t) == Some(c)
  {
  }

  /** Fields free of ':' and ',' are recovered from `h:m:sec,ms`. */
  lemma SplitTimestamp(h: string, m: string, sec: string, ms: string)
    requires ':' !in h && ':' !in m && ':' !in sec && ':' !in ms
    requires ',' !in sec && ',' !in ms
    ensures SplitOn(h + ":" + m + ":" + sec + "," + ms, ':') == [h, m, sec + [','] + ms]
    ensures SplitOn(sec + [','] + ms, ',') == [sec, ms]
  {
    var last := sec + [','] + ms;
    assert ':' !in last;
    assert h + ":" + m + ":" + sec + "," + ms == h + [':'] + (m + [':'] + last);
    SplitOnCons(h, ':', m + [':'] + last);
    SplitOnCons(m, ':', last);
    SplitOnAbsent(last, ':');
    SplitOnCons(sec, ',', ms);
    SplitOnAbsent(ms, ',');
  }

  /** Reading a printed clock back gives every field exactly. */
  lemma FormatClockRoundTrip(c: Clock)
    ensures ParseTime(FormatClock(c)) == Some(c)
  {
    var h, m := FormatInt(c.hours, 2), FormatInt(c.minutes, 2);
    var sec, ms := FormatInt(c.seconds, 1), FormatInt(c.millis, 3);
    FieldHasNoSeparator(c.hours, 2);
    FieldHasNoSeparator(c.minutes, 2);
    FieldHasNoSeparator(c.seconds, 1);
    FieldHasNoSeparator(c.millis, 3);
    SplitTimestamp(h, m, sec, ms);
    FormatIntRoundTrip(c.hours, 2);
    FormatIntRoundTrip(c.minutes, 2);
    FormatIntRoundTrip(c.seconds, 1);
    FormatIntRoundTrip(c.millis, 3);
    ParseTimeFields(FormatClock(c), h, m, sec, ms, c);
  }

  /** The printed layout: three ':'-separated fields, the last split by ','
      into seconds and milliseconds. Hours take at least two characters,
      minutes exactly two, seconds are printed unpadded as `str` prints
      them, and milliseconds take exactly three digits unless they reach
      1000. */
  lemma FormatClockLayout(c: Clock)
    requires 0 <= c.minutes <= 59 && 0 <= c.seconds && 0 <= c.millis <= 1000
    ensures var parts := SplitOn(FormatClock(c), ':');
      && |parts| == 3 && |parts[0]| >= 2 && |parts[1]| == 2
      && var last := SplitOn(parts[2], ',');
      && |last| == 2 && last[0] == Show(c.seconds)
      && |last[1]| == (if c.millis == 1000 then 4 else 3)
  {
    var h, m := FormatInt(c.hours, 2), FormatInt(c.minutes, 2);
    var sec, ms := FormatInt(c.seconds, 1), FormatInt(c.millis, 3);
    FieldHasNoSeparator(c.hours, 2);
    FieldHasNoSeparator(c.minutes, 2);
    FieldHasNoSeparator(c.seconds, 1);
    FieldHasNoSeparator(c.millis, 3);
    FieldWidths(c);
    TimestampLayout(FormatClock(c), h, m, sec, ms, c.seconds, c.millis == 1000);
  }

  /** The same layout, for any four separator-free fields of those widths. */
  lemma TimestampLayout(t: string, h: string, m: string, sec: string, ms: string, seconds: nat, wide: bool)
    requires t == h + ":" + m + ":" + sec + "," + ms
    requires ':' !in h && ':' !in m && ':' !in sec && ':' !in ms
    requires ',' !in sec && ',' !in ms
    requires |h| >= 2 && |m| == 2 && sec == Show(seconds) && |ms| == (if wide then 4 else 3)
    ensures var parts := SplitOn(t, ':');
      && |parts| == 3 && |parts[0]| >= 2 && |parts[1]| == 2
      && var last := SplitOn(parts[2], ',');
      && |last| == 2 && last[0] == Show(seconds)
      && |last[1]| == (if wide then 4 else 3)
  {
    SplitTimestamp(h, m, sec, ms);
  }

  /** The widths of the minutes, seconds and milliseconds fields. */
  lemma FieldWidths(c: Clock)
    requires 0 <= c.minutes <= 59 && 0 <= c.seconds && 0 <= c.millis <= 1000
    ensures |FormatInt(c.minutes, 2)| == 2
    ensures FormatInt(c.seconds, 1) == Show(c.seconds)
    ensures |FormatInt(c.millis, 3)| == (if c.millis == 1000 then 4 else 3)
  {
    MinutesWidth(c.minutes);
    SecondsWidth(c.seconds);
    MillisWidth(c.millis);
  }

  lemma MinutesWidth(n: int)
    requires 0 <= n <= 59
    ensures |FormatInt(n, 2)| == 2
  {
    ShowLength(n);
    assert FormatInt(n, 2) == ZeroPad(Show(n), 2);
  }

  lemma SecondsWidth(n: int)
    requires 0 <= n
    ensures FormatInt(n, 1) == Show(n)
  {
    assert |Show(n)| >= 1;
    assert FormatInt(n, 1) == ZeroPad(Show(n), 1);
  }

  lemma MillisWidth(n: int)
    requires 0 <= n <= 1000
    ensures |FormatInt(n, 3)| == (if n == 1000 then 4 else 3)
  {
    assert FormatInt(n, 3) == ZeroPad(Show(n), 3);
    if n == 1000 {
      assert Show(1000) == Show(100) + [DigitChar(0)];
      ShowLength(100);
    } else {
      ShowLength(n);
    }
  }

  /** The layout of every `format_time` result. */
  lemma FormatTimeLayout(s: real)
    ensures var parts := SplitOn(FormatTime(s), ':');
      && |parts| == 3 && |parts[0]| >= 2 && |parts[1]| == 2
      && var last := SplitOn(parts[2], ',');
      && |last| == 2 && last[0] == Show(Split(s).seconds)
      && |last[1]| == (if Split(s).millis == 1000 then 4 else 3)
  {
    FormatClockLayout(Split(s));
  }

  /** The timestamp text determines the clock reading it was printed from,
      which lies within half a millisecond of the input. */
  lemma FormatTimeRoundTrip(s: real)
    ensures ParseTime(FormatTime(s)) == Some(Split(s))
    ensures -0.0005 <= ClockSeconds(ParseTime(FormatTime(s)).value) - s <= 0.0005
  {
    FormatClockRoundTrip(Split(s));
  }

  /** No space or line break in any of the parts of `h:m:sec,ms`. */
  lemma NoBlankInTimestamp(h: string, m: string, sec: string, ms: string)
    requires ' ' !in h && ' ' !in m && ' ' !in sec && ' ' !in ms
    requires '\n' !in h && '\n' !in m && '\n' !in sec && '\n' !in ms
    ensures ' ' !in h + ":" + m + ":" + sec + "," + ms
    ensures '\n' !in h + ":" + m + ":" + sec + "," + ms
  {
  }

  /** Printed clocks carry no space and no line break, so they can sit
      inside a space-separated subtitle timing line. */
  lemma FormatClockHasNoBlank(c: Clock)
    ensures ' ' !in FormatClock(c) && '\n' !in FormatClock(c)
  {
    FieldHasNoSeparator(c.hours, 2);
    FieldHasNoSeparator(c.minutes, 2);
    FieldHasNoSeparator(c.seconds, 1);
    FieldHasNoSeparator(c.millis, 3);
    NoBlankInTimestamp(FormatInt(c.hours, 2), FormatInt(c.minutes, 2),
      FormatInt(c.seconds, 1), FormatInt(c.millis, 3));
  }

  lemma FormatTimeHasNoBlank(s: real)
    ensures ' ' !in FormatTime(s) && '\n' !in FormatTime(s)
  {
    FormatClockHasNoBlank(Split(s));
  }

  // Worked examples. Each is proved in pieces: the arithmetic of Split,
  // the printing of each field, and their concatenation (FormatTimeAs).

  lemma FormatTimeAs(s: real, c: Clock, h: string, m: string, sec: string, ms: string, t: string)
    requires Split(s) == c
    requires FormatInt(c.hours, 2) == h && FormatInt(c.minutes, 2) == m
    requires FormatInt(c.seconds, 1) == sec && FormatInt(c.millis, 3) == ms
    requires h + ":" + m + ":" + sec + "," + ms == t
    ensures FormatTime(s) == t
  {
  }

  lemma SplitZero()
    ensures Split(0.0) == Clock(0, 0, 0, 0)
  {
  }

  lemma PrintZeroFields()
    ensures FormatInt(0, 1) == "0" && FormatInt(0, 2) == "00" && FormatInt(0, 3) == "000"
  {
    assert Show(0) == "0";
    assert Zeros(1) + "0" == "00";
    assert Zeros(2) + "0" == "000";
  }

  lemma FormatZero()
    ensures FormatTime(0.0) == "00:00:0,000"
  {
    assert "00" + ":" + "00" + ":" + "0" + "," + "000" == "00:00:0,000";
    SplitZero();
    PrintZeroFields();
    FormatTimeAs(0.0, Clock(0, 0, 0, 0), "00", "00", "0", "000", "00:00:0,000");
  }

  lemma PrintNine()
    ensures FormatInt(9, 1) == "9"
  {
    assert Show(9) == "9";
  }

  lemma PrintFiftyNine()
    ensures FormatInt(59, 1) == "59" && FormatInt(59, 2) == "59"
  {
    assert Show(59) == "59" by {
      assert Show(5) == "5";
    }
  }

  lemma PrintThousand()
    ensures FormatInt(1000, 3) == "1000"
  {
    assert Show(1000) == "1000" by {
      assert Show(1) == "1";
      assert Show(10) == "10";
      assert Show(100) == "100";
    }
  }

  /** 60 - 2^-11 s, a value a binary float holds exactly: 999.51171875 ms
      round up to 1000. */
  lemma SplitMillisNotCarried()
    ensures Split(59.99951171875) == Clock(0, 0, 59, 1000)
  {
  }

  /** Just under a minute prints a four-digit milliseconds field instead
      of carrying into the seconds. */
  lemma FormatMillisNotCarried()
    ensures FormatTime(59.99951171875) == "00:00:59,1000"
  {
    assert "00" + ":" + "00" + ":" + "59" + "," + "1000" == "00:00:59,1000";
    SplitMillisNotCarried();
    PrintZeroFields();
    PrintFiftyNine();
    PrintThousand();
    FormatTimeAs(59.99951171875, Clock(0, 0, 59, 1000), "00", "00", "59", "1000", "00:00:59,1000");
  }

  /** 1/16 s, exact in binary, is 62.5 ms, a true tie; it goes to the even
      62 (rounding half up would give 63). */
  lemma SplitHalfMillisToEven()
    ensures Split(0.0625) == Clock(0, 0, 0, 62)
  {
  }

  lemma PrintSixtyTwo()
    ensures FormatInt(62, 3) == "062"
  {
    assert Show(62) == "62" by {
      assert Show(6) == "6";
    }
    assert Zeros(1) + "62" == "062";
  }

  /** 0.0625 s: round-half-to-even milliseconds and an unpadded seconds
      field. */
  lemma FormatHalfMillisToEven()
    ensures FormatTime(0.0625) == "00:00:0,062"
  {
    assert "00" + ":" + "00" + ":" + "0" + "," + "062" == "00:00:0,062";
    SplitHalfMillisToEven();
    PrintZeroFields();
    PrintSixtyTwo();
    FormatTimeAs(0.0625, Clock(0, 0, 0, 62), "00", "00", "0", "062", "00:00:0,062");
  }

  lemma SplitNine()
    ensures Split(9.0) == Clock(0, 0, 9, 0)
  {
  }

  lemma SplitTen()
    ensures Split(10.0) == Clock(0, 0, 10, 0)
  {
  }

  lemma PrintTen()
    ensures FormatInt(10, 1) == "10"
  {
    assert Show(10) == "10" by {
      assert Show(1) == "1";
    }
  }

  lemma FormatNine()
    ensures FormatTime(9.0) == "00:00:9,000"
  {
    assert "00" + ":" + "00" + ":" + "9" + "," + "000" == "00:00:9,000";
    SplitNine();
    PrintZeroFields();
    PrintNine();
    FormatTimeAs(9.0, Clock(0, 0, 9, 0), "00", "00", "9", "000", "00:00:9,000");
  }

  lemma FormatTen()
    ensures FormatTime(10.0) == "00:00:10,000"
  {
    assert "00" + ":" + "00" + ":" + "10" + "," + "000" == "00:00:10,000";
    SplitTen();
    PrintZeroFields();
    PrintTen();
    FormatTimeAs(10.0, Clock(0, 0, 10, 0), "00", "00", "10", "000", "00:00:10,000");
  }

  lemma NineBeforeTen(nine: string, ten: string)
    requires nine == "00:00:9,000" && ten == "00:00:10,000"
    ensures nine[..6] == ten[..6] && ten[6] < nine[6]
  {
  }

  /** Because the seconds field is unpadded, a later time can print as a
      lexicographically smaller string: the two agree up to index 6, where
      '1' < '9'. */
  lemma FormatNotMonotonic()
    ensures FormatTime(9.0)[..6] == FormatTime(10.0)[..6]
    ensures FormatTime(10.0)[6] < FormatTime(9.0)[6]
  {
    FormatNine();
    FormatTen();
    NineBeforeTen(FormatTime(9.0), FormatTime(10.0));
  }

  lemma SplitMinusOne()
    ensures Split(-1.0) == Clock(-1, 59, 59, 0)
  {
  }

  lemma PrintMinusOne()
    ensures FormatInt(-1, 2) == "-1"
  {
    assert Show(1) == "1";
    assert ZeroPad("1", 1) == "1";
    assert FormatInt(-1, 2) == "-" + ZeroPad(Show(1), 1);
  }

  /** A negative offset gives a negative hour and in-range minutes and
      seconds, as Python's `math.floor` and `%` do. */
  lemma FormatNegative()
    ensures FormatTime(-1.0) == "-1:59:59,000"
  {
    assert "-1" + ":" + "59" + ":" + "59" + "," + "000" == "-1:59:59,000";
    SplitMinusOne();
    PrintMinusOne();
    PrintFiftyNine();
    PrintZeroFields();
    FormatTimeAs(-1.0, Clock(-1, 59, 59, 0), "-1", "59", "59", "000", "-1:59:59,000");
  }
}

=== FILE: wrappers.dfy ===
/** The optional-value datatype used for every operation of the model that
    can fail: parsing a rendered timestamp or subtitle document, and merging
    keyword arguments (where Python raises a TypeError). */
module Wrappers {

  datatype Option<+T> = None | Some(value: T)
}
